=== FILE: README.md ===
# rehype-infer-description-meta, modelled in Dafny

`rehypeInferDescriptionMeta` is a rehype plugin that infers a description for
an HTML document and stores it in `file.data.meta.description`. It can also
store the tree of that description in `file.data.meta.descriptionHast`.

The plugin picks one fragment of the document by three strategies, tried in
order inside the main scope:

1. the element a `selector` matches;
2. the content before an excerpt comment (`<!--more-->` by default);
3. the document truncated to `truncateSize` characters (140 by default).

It strips the fragment's source positions. It then rewrites the fragment's
plain text four times:

1. a final ellipsis preceded by white space (`[\t\r\n ]`) loses that white
   space and any white space after it, line breaks included; an ellipsis
   with no white space before it is left as it is, even when white space
   follows;
2. the first line break and the blanks (spaces and tabs) around it become a
   line feed;
3. the first run of line breaks becomes a space;
4. the result is trimmed.

Each of steps 1 to 3 rewrites only its first match. Only the first line
break and its run are therefore joined: `"a\nb\nc"` becomes `"a b\nc"`,
and the blanks after a run of two or more line breaks survive, so
`"a\n\n  b"` becomes `"a   b"`.

It writes `description` and `descriptionHast` only where the front matter
(`file.data.matter`) and earlier plugins have not set them.

The project has six modules:

- `Optional`: the `Option` datatype.
- `JsValues`: the JavaScript values the plugin's decisions depend on. It
  covers `undefined` and `null`, truthiness, `typeof === 'number'`, property
  reads on plain records, and hast node handles.
- `CharClasses`: the character classes of the three regular expressions and
  the white space of `String.prototype.trim`.
- `FirstMatch`: `String.prototype.replace` with a non-global regular
  expression, for the three patterns used.
  - For each pattern there is a search function.
  - Its contract says the search returns the first match: leftmost start,
    then longest end.
  - It also says the search returns no match exactly when the pattern matches
    nowhere.
- `Description`: the four-step normaliser and its properties.
- `InferDescription`: option defaults, the main scope, the strategy
  waterfall, and the guarded writes to `file.data.meta`.

The hast utilities (`select`, `selectAll`, `excerpt`, `truncate`, `toText`)
are parameters, the fields of a `Library` value. Every statement about the
plugin holds for every choice of them.

Where the plugin's documentation and its code differ, the model follows the
code:

- The documentation comment gives `maxExcerptSearchSize` a default of 2048
  (index.js:28). The code has no default for it: it passes the value through
  to `excerpt` as given, `undefined` included (index.js:57, index.js:75). Any
  2048 default belongs to `hast-util-excerpt`, which is not part of this
  model.

Normalisation is not idempotent, as the code is written. Each rewrite
replaces only its first match, so a second pass rewrites the next line break.
`Description.NormalizeNotIdempotent` proves this on `"a\nb\nc"`.

## Model

| member | source | states |
|---|---|---|
| `JsValues.RemovePosition` | index.js:89 | the stripped fragment is the same node, now marked as having no positions |
| `JsValues.Truthy` | index.js:63 | truthiness as `mainSelector ? … : …` tests it: exactly `undefined`, `null`, `false`, `0` and `''` are falsy |
| `JsValues.StringTruthy` | index.js:91 | a string is truthy exactly when it is not empty |
| `JsValues.Get` | index.js:91 | reading a missing key of a record gives `undefined`; a present key gives its value |
| `InferDescription.WithDefault` | index.js:53 | a destructuring default replaces `undefined` only; every other value, `null` and `''` included, is kept |
| `InferDescription.Resolve` | index.js:50-59 | `comment`, `truncateSize`, `ignoreSelector` and `inferDescriptionHast` default to `'more'`, 140, `'h1, script, style, noscript, template'` and `false` when undefined, and are kept otherwise; `selector`, `mainSelector` and `maxExcerptSearchSize` pass through unchanged |
| `InferDescription.DefaultsOfNoOptions` | index.js:50-59 | the plugin called without options runs with exactly those defaults; the three optional properties stay undefined |
| `InferDescription.ResolveIdempotent` | index.js:51-59 | resolved options have no undefined property left to default, so resolving twice equals resolving once |
| `InferDescription.Run` | index.js:50-61 | the plugin never changes `matter`; with `truncateSize` left undefined and no truthy `mainSelector`, a `meta` object always exists afterwards |
| `InferDescription.IgnoredSpansWholeTree` | index.js:62 | the nodes to ignore are selected with `ignoreSelector` in the whole tree, whatever `mainSelector` is |
| `InferDescription.MainScope` | index.js:63 | a falsy `mainSelector` searches the whole tree; a truthy one searches only what `select` finds, which may be nothing |
| `InferDescription.ChooseFragment` | index.js:63-81 | without a main scope no strategy runs and there is no fragment |
| `InferDescription.FirstFound` | index.js:67-81 | a fragment the waterfall finds is the result of one of its enabled strategies |
| `InferDescription.WaterfallIsFirstFound` | index.js:67-81 | the three guarded assignments equal the first enabled strategy, in the order selector, comment, truncation, that finds a fragment |
| `InferDescription.SelectorWins` | index.js:67-69 | a selector match inside the main scope is the fragment, whatever the other strategies would find |
| `InferDescription.ExcerptBeforeTruncation` | index.js:71-77 | with no selector match and a truthy `comment`, an excerpt that is found is the fragment, even when truncation is enabled |
| `InferDescription.TruncationLastResort` | index.js:79-81 | when the first two strategies find nothing, a numeric `truncateSize` always yields the truncated main scope as the fragment |
| `InferDescription.FragmentFoundIff` | index.js:67-83 | there is a fragment if and only if there is a main scope and the selector matches, or the excerpt is found, or `truncateSize` is a number |
| `InferDescription.MayWriteDescription` | index.js:91 | `description` may be written exactly when `matter` and `meta` both hold a falsy one; a record with no `description` at all never stops it |
| `InferDescription.MayWriteDescriptionHast` | index.js:99-103 | `descriptionHast` may be written exactly when `matter` and `meta` both hold a falsy one and `inferDescriptionHast` is truthy; `inferDescriptionHast: false` always stops it |
| `InferDescription.DescriptionOf` | index.js:92-96 | the description is a string without white space at either end, falsy only when empty |
| `InferDescription.WriteMeta` | index.js:91-105 | only `description` and `descriptionHast` change; each is written, and so present, exactly when its guard holds; otherwise its value is kept and it is present afterwards exactly when it was present before |
| `InferDescription.Transform` | index.js:83-106 | without a fragment `file.data` is unchanged; with one, `meta` exists afterwards and all its other keys are unchanged; `description` gets the normalised text of the stripped fragment exactly when neither `matter` nor `meta` has a truthy one; `descriptionHast` gets the stripped fragment exactly when neither has a truthy one and `inferDescriptionHast` is truthy; a key that is not written is present afterwards exactly when it was present before; `matter` is never changed |
| `InferDescription.NeverOverwrites` | index.js:91-101 | a truthy `description` or `descriptionHast` already in `matter` or `meta` leaves `meta`'s value for that key unchanged |
| `InferDescription.TransformIdempotent` | index.js:83-106 | running the transformer again on the same tree and library leaves `file.data` as the first run left it |
| `InferDescription.UnmatchedMainIsNoOp` | index.js:63-83 | when `mainSelector` is truthy and matches nothing, `file.data` is returned unchanged, without even a `meta` object |
| `InferDescription.DefaultsAlwaysDescribe` | index.js:50-101 | with default options and no truthy description set yet, a fragment is always found and `description` is always written, as the normalised text of the stripped fragment, even over an empty one, and `descriptionHast` keeps its value and is present exactly when it was before |
| `InferDescription.NullTruncateSizeDisablesTruncation` | index.js:79 | `truncateSize: null` survives the defaults and turns truncation off: there is a fragment only if the selector or the excerpt finds one |
| `InferDescription.TruncateByDefaultExample` | test.js:16-30 | without an excerpt comment and with default options, the fragment is the document truncated to 140 characters with `…`, ignoring the default selector, and empty data ends up with a `meta` holding only `description` |
| `InferDescription.MainSelectorWithoutMatchExample` | test.js:64-73 | `mainSelector: 'article'` on a document with no `article` leaves an empty `file.data` empty |
| `InferDescription.DescriptionHastExample` | test.js:32-62 | with `inferDescriptionHast: true` on empty data, `meta` holds exactly the description and the tree of one fragment, stripped of positions |
| `FirstMatch.FirstMatchUnique` | index.js:93-95 | a pattern has at most one first match in a string |
| `FirstMatch.FindSpacedEllipsis` | index.js:93 | finds the first match of `[\t\r\n ]+…[\t \r\n]*$`, or reports that there is none |
| `FirstMatch.FindFirstLineBreak` | index.js:94 | finds the first match of `[\t ]*[\r\n][\t ]*`, or reports that there is none |
| `FirstMatch.FindLineBreakRun` | index.js:95 | finds the first match of `[\r\n]+`, or reports that there is none |
| `FirstMatch.Find` | index.js:93-95 | the result is the first match of the pattern, or nothing exactly when the pattern matches nowhere |
| `FirstMatch.Replace` | index.js:93-95 | `replace` without the `g` flag splices the replacement in place of the first match and keeps everything else; without a match the text is unchanged |
| `Description.CollapseEllipsis` | index.js:93 | step 1 never lengthens the text: it either leaves it unchanged or cuts it back to a prefix of itself followed by `…` |
| `Description.MarkFirstBreak` | index.js:94 | step 2 never lengthens the text; it leaves text without a line break unchanged, and otherwise keeps the text before the blanks that precede the first line break and puts a line feed after it |
| `Description.JoinFirstBreakRun` | index.js:95 | step 3 never lengthens the text; it leaves text without a line break unchanged, and otherwise keeps everything before the first line break and puts a space in its place |
| `Description.Trim` | index.js:96 | the result is the input with trim white space removed from both ends only, and it neither starts nor ends with trim white space |
| `Description.TrimKeepsTrimmed` | index.js:96 | text without white space at either end is unchanged by `trim` |
| `Description.Normalize` | index.js:92-96 | the description never starts or ends with white space |
| `Description.CollapseEllipsisEnds` | index.js:93 | after step 1, text that ends in white space, an ellipsis and optional white space ends in the ellipsis, with no white space just before it, preceded by a prefix of the original text whose dropped tail is white space |
| `Description.CollapseEllipsisIdempotent` | index.js:93 | step 1 leaves nothing for itself to match: applying it twice equals applying it once |
| `Description.CollapseEllipsisKeepsPlainEnd` | index.js:93 | step 1 leaves text alone when its last character is not white space and, if it is an ellipsis, the character before it is not white space either |
| `Description.NoBreakOnlyEllipsisAndTrim` | index.js:92-96 | on text without carriage returns or line feeds, steps 2 and 3 change nothing, so only step 1 and the trim act |
| `Description.NoBreakAfterStepOne` | index.js:93-96 | once step 1 has left no carriage return or line feed, steps 2 and 3 change nothing |
| `Description.MarkFirstBreakAt` | index.js:94 | step 2 replaces the first line break, together with the blanks on both sides of it, by one line feed |
| `Description.JoinRunAt` | index.js:95 | step 3 replaces the first run of line breaks by one space |
| `Description.CollapseBreakRunAt` | index.js:94-95 | steps 2 and 3 on a line-break run with blanks around it give one space; after a run longer than one character, the blanks following it survive |
| `Description.CollapseOneBreakAt` | index.js:94-95 | a single line break and the blanks on both sides become one space |
| `Description.CollapseLongRunAt` | index.js:94-95 | a run of two or more line breaks, with the blanks before it, becomes one space |
| `Description.JoinSingleBreakRun` | index.js:94-95 | the same result for two lines joined by blanks, a line-break run and blanks |
| `Description.NormalizeSingleBreakRun` | index.js:92-96 | two trimmed lines around one line-break run normalise to the lines joined by one space, also when the second line ends in an ellipsis right after a visible character; blanks after a run longer than one character survive |
| `Description.ParagraphBreakExample` | index.js:92-96 | `"a\n\nb"` normalises to `"a b"` |
| `Description.FirstOfTwoBreaks` | index.js:94-95 | `"a\nb\nc"` normalises to `"a b\nc"`: only the first break is rewritten |
| `Description.LastBreak` | index.js:94-95 | `"a b\nc"` normalises to `"a b c"` |
| `Description.NormalizeNotIdempotent` | index.js:92-96 | normalising `"a\nb\nc"` twice differs from normalising it once |
| `Description.NormalizeTrailingEllipsis` | index.js:93-96 | for any text before it, line breaks included, white space (`[\t\r\n ]`) before a final ellipsis and after it is gone: the description ends in the ellipsis right after the text's last visible character; on a single line whose first character is visible, the description is exactly that line and the ellipsis |
| `Description.EllipsisTail` | index.js:94-96 | steps 2 to 4 keep a final ellipsis and the visible character before it |
| `Description.StepKeepsTail` | index.js:94-95 | steps 2 and 3 rewrite only white space, so the last two characters survive when neither is white space |
| `Description.TrimKeepsEnd` | index.js:96 | `trim` of text ending in a visible character is a nonempty suffix of it |
| `Description.TruncatedParagraphsExample` | test.js:27 | `"aliqua.\n\nUt enim ad minim…"`, the shape a truncated two-paragraph document takes, normalises to `"aliqua. Ut enim ad minim…"` |
| `Description.SpacedTruncationExample` | index.js:93-96 | `"a\n\nb \t…"` normalises to `"a b…"` |
| `Description.TrailingEllipsisExample` | index.js:93 | `"ad minim"`, a space, a tab and an ellipsis normalise to `"ad minim…"` |

## Left out

- The hast utilities `select`, `selectAll`, `excerpt`, `truncate` and
  `toText` are parameters. Selector matching, the comment search, truncation
  and text extraction are separate libraries and are not part of this model.
- `truncate` is taken to always return a tree; a `null` result is not
  modelled.
- Invalid selectors make `select` throw. Exceptions are not modelled.
- `removePosition` is modelled as a flag on the fragment's handle. It also
  mutates the fragment in place, and the fragment may be part of the document
  tree. That effect on the shared tree is not modelled.
  `InferDescription.TransformIdempotent` therefore assumes the second run sees
  the same tree and library results.
- `meta` is mutated in place when it exists. The model returns a new record.
  The difference shows only through aliasing, which is not modelled.
- The unified plumbing is not modelled: the attacher/transformer calling
  convention, the `file` object, and `file.data` entries other than `matter`
  and `meta`.
- `file.data.matter` and `file.data.meta` are modelled as absent or plain
  records. A truthy non-object value there, such as a string, is not modelled.
- The plugin called with `options = null` throws a `TypeError` while
  destructuring. This is not modelled, because options are always a record of
  values.
- Numbers are integers. `NaN`, infinities and fractions are not modelled, even
  though `typeof` reports them as numbers.
- Text is a sequence of Unicode scalar values, not of UTF-16 code units as
  in JavaScript, so a lone surrogate in `toText`'s output cannot be
  represented. Every character class the normaliser tests lies in the Basic
  Multilingual Plane, so well-formed text is rewritten the same way.
- Replacement strings are literal. `$` patterns do not occur in the plugin.
- `index.d.ts` and `complex-types.d.ts` hold only types and module
  augmentation; they are not part of this model.

=== FILE: char_classes.dfy ===
/** The character classes of the description normaliser's regular
    expressions, and the whitespace set of `String.prototype.trim`. */
module CharClasses {

  /** HORIZONTAL ELLIPSIS, U+2026, the truncation marker. */
  const Ellipsis: char := '\U{2026}'

  /** The class `[\t\r\n ]`. */
  predicate IsSpaceClass(c: char) {
    c == '\t' || c == '\r' || c == '\n' || c == ' '
  }

  /** The class `[\t ]`. */
  predicate IsBlank(c: char) {
    c == '\t' || c == ' '
  }

  /** The class `[\r\n]`. */
  predicate IsLineBreak(c: char) {
    c == '\r' || c == '\n'
  }

  predicate NotLineBreak(c: char) {
    !IsLineBreak(c)
  }

  /** What `trim` removes: ECMAScript's WhiteSpace (tab, vertical tab, form
      feed, space, no-break space, zero width no-break space and the Unicode
      space separators) and LineTerminator (LF, CR, line and paragraph
      separator) code points. */
  predicate IsTrimSpace(c: char) {
    || c == '\t' || c == '\n' || c == '\U{000B}' || c == '\U{000C}' || c == '\r'
    || c == ' ' || c == '\U{00A0}' || c == '\U{1680}'
    || ('\U{2000}' <= c <= '\U{200A}')
    || c == '\U{2028}' || c == '\U{2029}' || c == '\U{202F}' || c == '\U{205F}'
    || c == '\U{3000}' || c == '\U{FEFF}'
  }

  /** Every character the regular expressions treat as white space is also
      removed by `trim`, and the ellipsis is in none of the classes. */
  lemma ClassesNest(c: char)
    ensures IsBlank(c) ==> IsSpaceClass(c)
    ensures IsLineBreak(c) ==> IsSpaceClass(c)
    ensures IsSpaceClass(c) ==> IsTrimSpace(c)
    ensures !IsSpaceClass(Ellipsis) && !IsTrimSpace(Ellipsis)
  {
  }
}

=== FILE: description.dfy ===
/** The description normaliser: the four rewrites the plugin applies, in
    order, to the plain text of the chosen fragment before storing it as
    `meta.description`. */
module Description {
  import opened CharClasses
  import opened FirstMatch

  /** The text is `r` with a run of `trim` white space on either side. */
  ghost predicate TrimSplit(s: string, a: int, r: string) {
    && 0 <= a && a + |r| <= |s|
    && s[a..a + |r|] == r
    && (forall m :: 0 <= m < a ==> IsTrimSpace(s[m]))
    && (forall m :: a + |r| <= m < |s| ==> IsTrimSpace(s[m]))
  }

  /** `String.prototype.trim`. */
  function Trim(s: string): (r: string)
    ensures |r| > 0 ==> !IsTrimSpace(r[0]) && !IsTrimSpace(r[|r| - 1])
    ensures exists a :: TrimSplit(s, a, r)
  {
    var a := SkipForward(s, 0, IsTrimSpace);
    var b := SkipBackward(s, |s|, IsTrimSpace);
    if b <= a then
      assert TrimSplit(s, |s|, []);
      []
    else
      assert TrimSplit(s, a, s[a..b]);
      s[a..b]
  }

  /** Step 1: `.replace(/[\t\r\n ]+…[\t \r\n]*$/, '…')`. The text either
      stays as it is or is cut back to a prefix of itself followed by the
      ellipsis; it never grows. */
  function CollapseEllipsis(text: string): (r: string)
    ensures |r| <= |text|
    ensures r == text || (|r| > 0 && r[|r| - 1] == Ellipsis && r[..|r| - 1] == text[..|r| - 1])
  {
    EllipsisReplaceShape(text);
    Replace(SpacedEllipsisAtEnd, text, [Ellipsis])
  }

  /** Step 2: `.replace(/[\t ]*[\r\n][\t ]*\/, '\n')`. Text without a
      line break is unchanged; otherwise the text before the blanks that
      precede the first line break is kept and a line feed follows it. The
      text never grows. */
  function MarkFirstBreak(text: string): (r: string)
    ensures |r| <= |text|
    ensures !HasLineBreak(text) ==> r == text
    ensures var k := SkipForward(text, 0, NotLineBreak);
      var i := SkipBackward(text, k, IsBlank);
      k < |text| ==> i < |r| && r[..i] == text[..i] && r[i] == '\n'
  {
    BreakReplaceShape(text);
    Replace(FirstLineBreak, text, "\n")
  }

  /** Step 3: `.replace(/[\r\n]+/, ' ')`. Text without a line break is
      unchanged; otherwise everything before the first line break is kept
      and a space takes that break's place. */
  function JoinFirstBreakRun(text: string): (r: string)
    ensures |r| <= |text|
    ensures !HasLineBreak(text) ==> r == text
    ensures var k := SkipForward(text, 0, NotLineBreak);
      k < |text| ==> k < |r| && r[..k] == text[..k] && r[k] == ' '
  {
    RunReplaceShape(text);
    Replace(LineBreakRun, text, " ")
  }

  /** The whole rewrite of `toText(fragment)` into `meta.description`. */
  function Normalize(text: string): (r: string)
    ensures |r| > 0 ==> !IsTrimSpace(r[0]) && !IsTrimSpace(r[|r| - 1])
  {
    Trim(JoinFirstBreakRun(MarkFirstBreak(CollapseEllipsis(text))))
  }

  predicate HasLineBreak(s: string) {
    exists m :: 0 <= m < |s| && IsLineBreak(s[m])
  }


  /** `Replace`'s contract at a known first match. */
  lemma ReplaceFirst(p: Pattern, s: string, replacement: string, i: int, j: int)
    requires IsFirstMatch(p, s, i, j)
    ensures 0 <= i <= j <= |s|
    ensures Replace(p, s, replacement) == s[..i] + replacement + s[j..]
  {
  }

  lemma EllipsisReplaceShape(text: string)
    ensures var r := Replace(SpacedEllipsisAtEnd, text, [Ellipsis]);
      && |r| <= |text|
      && (r == text || (|r| > 0 && r[|r| - 1] == Ellipsis && r[..|r| - 1] == text[..|r| - 1]))
  {
    match Find(SpacedEllipsisAtEnd, text)
    case None =>
    case Some((i, j)) =>
      ReplaceFirst(SpacedEllipsisAtEnd, text, [Ellipsis], i, j);
      SpacedEllipsisShape(text, i, j);
      var r := Replace(SpacedEllipsisAtEnd, text, [Ellipsis]);
      assert r == text[..i] + [Ellipsis];
      assert r[..|r| - 1] == text[..i];
  }

  lemma BreakReplaceShape(text: string)
    ensures var r := Replace(FirstLineBreak, text, "\n");
      var k := SkipForward(text, 0, NotLineBreak);
      var i := SkipBackward(text, k, IsBlank);
      && |r| <= |text|
      && (!HasLineBreak(text) ==> r == text)
      && (k < |text| ==> i < |r| && r[..i] == text[..i] && r[i] == '\n')
  {
    match Find(FirstLineBreak, text)
    case None =>
    case Some((i, j)) =>
      ReplaceFirst(FirstLineBreak, text, "\n", i, j);
      var k :| BreakSplit(text, i, k, j);
      var r := Replace(FirstLineBreak, text, "\n");
      assert r == text[..i] + "\n" + text[j..];
      assert r[i] == '\n';
  }

  lemma RunReplaceShape(text: string)
    ensures var r := Replace(LineBreakRun, text, " ");
      var k := SkipForward(text, 0, NotLineBreak);
      && |r| <= |text|
      && (!HasLineBreak(text) ==> r == text)
      && (k < |text| ==> k < |r| && r[..k] == text[..k] && r[k] == ' ')
  {
    var r := Replace(LineBreakRun, text, " ");
    var k := SkipForward(text, 0, NotLineBreak);
    match Find(LineBreakRun, text)
    case None =>
    case Some((i, j)) =>
      ReplaceFirst(LineBreakRun, text, " ", i, j);
      assert r == text[..i] + " " + text[j..];
      assert IsLineBreak(text[i]);
      forall m | 0 <= m < i ensures NotLineBreak(text[m]) {
        assert !MatchAt(LineBreakRun, text, m, m + 1);
      }
      assert k == i;
  }

  // ---------------------------------------------------------------------
  // Trim

  /** `trim` leaves text without surrounding white space alone; in
      particular trimming twice is trimming once. */
  lemma TrimKeepsTrimmed(s: string)
    requires |s| > 0 ==> !IsTrimSpace(s[0]) && !IsTrimSpace(s[|s| - 1])
    ensures Trim(s) == s
  {
    if |s| > 0 {
      SkipForwardAt(s, 0, IsTrimSpace, 0);
      SkipBackwardAt(s, |s|, IsTrimSpace, |s|);
    }
  }

  // ---------------------------------------------------------------------
  // Step 1

  /** Text that ends in white space, the ellipsis and optional white space
      ends in the ellipsis after step 1, with no white space immediately
      before it; what precedes it is the text before the white space, with
      trailing white space dropped. */
  lemma CollapseEllipsisEnds(p: string, w1: string, w2: string)
    requires |w1| > 0
    requires forall m :: 0 <= m < |w1| ==> IsSpaceClass(w1[m])
    requires forall m :: 0 <= m < |w2| ==> IsSpaceClass(w2[m])
    ensures var r := CollapseEllipsis(p + w1 + [Ellipsis] + w2);
      && |r| > 0 && r[|r| - 1] == Ellipsis
      && (|r| >= 2 ==> !IsSpaceClass(r[|r| - 2]))
      && r[..|r| - 1] <= p
      && (forall m :: |r| - 1 <= m < |p| ==> IsSpaceClass(p[m]))
  {
    var s := p + w1 + [Ellipsis] + w2;
    var e := |p| + |w1|;
    assert EllipsisSplit(s, |p|, e, |s|);
    assert MatchAt(SpacedEllipsisAtEnd, s, |p|, |s|);
    var m := Find(SpacedEllipsisAtEnd, s);
    var i := m.value.0;
    assert IsFirstMatch(SpacedEllipsisAtEnd, s, i, |s|);
    SpacedEllipsisShape(s, i, |s|);
    SpacedEllipsisFirstStart(s, i, |s|);
    assert i <= |p|;
    var r := CollapseEllipsis(s);
    assert r == s[..i] + [Ellipsis];
    assert s[..i] == p[..i];
    assert SkipBackward(s, |s|, IsSpaceClass) - 1 == e;
    forall m | |r| - 1 <= m < |p|
      ensures IsSpaceClass(p[m])
    {
      assert p[m] == s[m];
    }
  }

  /** Step 1 removes its own match: applying it twice is applying it once. */
  lemma CollapseEllipsisIdempotent(s: string)
    ensures CollapseEllipsis(CollapseEllipsis(s)) == CollapseEllipsis(s)
  {
    var r := CollapseEllipsis(s);
    match Find(SpacedEllipsisAtEnd, s)
    case None =>
    case Some((i, j)) =>
      SpacedEllipsisFirstStart(s, i, j);
      assert r == s[..i] + [Ellipsis];
      SkipBackwardAt(r, |r|, IsSpaceClass, |r|);
      assert |r| >= 2 ==> r[|r| - 2] == s[i - 1];
      forall i', j' | 0 <= i' <= j' <= |r|
        ensures !MatchAt(SpacedEllipsisAtEnd, r, i', j')
      {
        SpacedEllipsisShape(r, i', j');
      }
  }

  /** Text whose last character is not white space, and is not an ellipsis
      right after white space, is left alone by step 1: the pattern needs at
      least one white-space character before the ellipsis. */
  lemma CollapseEllipsisKeepsPlainEnd(s: string)
    requires |s| > 0 ==> !IsSpaceClass(s[|s| - 1])
    requires |s| > 1 && s[|s| - 1] == Ellipsis ==> !IsSpaceClass(s[|s| - 2])
    ensures CollapseEllipsis(s) == s
  {
    if |s| > 0 {
      SkipBackwardAt(s, |s|, IsSpaceClass, |s|);
      if s[|s| - 1] == Ellipsis {
        SkipBackwardAt(s, |s| - 1, IsSpaceClass, |s| - 1);
      }
    }
    NoSpacedEllipsis(s);
  }

  // ---------------------------------------------------------------------
  // Steps 2 and 3

  /** Text with no carriage return or line feed is changed only by step 1
      and the trim. */
  lemma NoBreakOnlyEllipsisAndTrim(s: string)
    requires !HasLineBreak(s)
    ensures Normalize(s) == Trim(CollapseEllipsis(s))
  {
    var r1 := CollapseEllipsis(s);
    assert !HasLineBreak(r1) by {
      match Find(SpacedEllipsisAtEnd, s)
      case None =>
      case Some((i, j)) =>
        assert r1 == s[..i] + [Ellipsis];
        forall m | 0 <= m < |r1| ensures !IsLineBreak(r1[m]) {
          if m < i {
            assert r1[m] == s[m];
          }
        }
    }
    NoBreakAfterStepOne(s);
  }

  /** Once step 1 has left no carriage return or line feed, steps 2 and 3
      change nothing. */
  lemma NoBreakAfterStepOne(s: string)
    requires !HasLineBreak(CollapseEllipsis(s))
    ensures Normalize(s) == Trim(CollapseEllipsis(s))
  {
    var r1 := CollapseEllipsis(s);
    assert NoMatch(FirstLineBreak, r1) by {
      forall i, j | 0 <= i <= j <= |r1| ensures !MatchAt(FirstLineBreak, r1, i, j) {
        BreakShape(r1, i, j);
      }
    }
    assert MarkFirstBreak(r1) == r1;
    assert NoMatch(LineBreakRun, r1) by {
      forall i, j | 0 <= i <= j <= |r1| ensures !MatchAt(LineBreakRun, r1, i, j) {
        RunShape(r1, i, j);
      }
    }
  }

  /** Step 2 at a first line break `k` with its blank runs `[i, k)` and
      `(k, j)`: the three become one line feed. */
  lemma MarkFirstBreakAt(s: string, i: nat, k: nat, j: nat)
    requires i <= k < j <= |s|
    requires forall m :: 0 <= m < k ==> NotLineBreak(s[m])
    requires IsLineBreak(s[k])
    requires forall m :: i <= m < k ==> IsBlank(s[m])
    requires i > 0 ==> !IsBlank(s[i - 1])
    requires forall m :: k < m < j ==> IsBlank(s[m])
    requires j < |s| ==> !IsBlank(s[j])
    ensures MarkFirstBreak(s) == s[..i] + "\n" + s[j..]
  {
    SkipForwardAt(s, 0, NotLineBreak, k);
    SkipBackwardAt(s, k, IsBlank, i);
    SkipForwardAt(s, k + 1, IsBlank, j);
    FirstBreak(s, i, j);
  }

  /** A class that holds on every character of `t` holds on the copy of
      `t` inside `s` at offset `lo`. */
  lemma CopyAll(s: string, lo: nat, t: string, P: char -> bool)
    requires lo + |t| <= |s| && s[lo..lo + |t|] == t
    requires forall m :: 0 <= m < |t| ==> P(t[m])
    ensures forall m :: lo <= m < lo + |t| ==> P(s[m])
  {
    forall m | lo <= m < lo + |t| ensures P(s[m]) {
      assert s[m] == t[m - lo];
    }
  }

  /** Step 3 at a first line-break run `[k, j)`: the run becomes one space. */
  lemma JoinRunAt(t: string, k: nat, j: nat)
    requires k < j <= |t|
    requires forall m :: 0 <= m < k ==> NotLineBreak(t[m])
    requires forall m :: k <= m < j ==> IsLineBreak(t[m])
    requires j < |t| ==> !IsLineBreak(t[j])
    ensures JoinFirstBreakRun(t) == t[..k] + " " + t[j..]
  {
    SkipForwardAt(t, 0, NotLineBreak, k);
    SkipForwardAt(t, k + 1, IsLineBreak, j);
    FirstRun(t, j);
  }

  /** Steps 2 and 3 on text whose first line break starts a run `[k, r)`
      of line breaks, with the blank runs `[i, k)` before it and `[r, j)`
      after it. A one-character run and both blank runs become one space;
      a longer run becomes one space and the blanks after it survive. */
  lemma CollapseBreakRunAt(s: string, i: nat, k: nat, r: nat, j: nat)
    requires i <= k < r <= j <= |s|
    requires forall m :: 0 <= m < k ==> NotLineBreak(s[m])
    requires forall m :: i <= m < k ==> IsBlank(s[m])
    requires i > 0 ==> !IsBlank(s[i - 1])
    requires forall m :: k <= m < r ==> IsLineBreak(s[m])
    requires forall m :: r <= m < j ==> IsBlank(s[m])
    requires j < |s| ==> !IsBlank(s[j]) && !IsLineBreak(s[j])
    ensures r == k + 1 ==> JoinFirstBreakRun(MarkFirstBreak(s)) == s[..i] + " " + s[j..]
    ensures r > k + 1 ==> JoinFirstBreakRun(MarkFirstBreak(s)) == s[..i] + " " + s[r..]
  {
    if r == k + 1 {
      CollapseOneBreakAt(s, i, k, j);
    } else {
      CollapseLongRunAt(s, i, k, r);
    }
  }

  lemma CollapseOneBreakAt(s: string, i: nat, k: nat, j: nat)
    requires i <= k < j <= |s|
    requires forall m :: 0 <= m < k ==> NotLineBreak(s[m])
    requires forall m :: i <= m < k ==> IsBlank(s[m])
    requires i > 0 ==> !IsBlank(s[i - 1])
    requires IsLineBreak(s[k])
    requires forall m :: k < m < j ==> IsBlank(s[m])
    requires j < |s| ==> !IsBlank(s[j]) && !IsLineBreak(s[j])
    ensures JoinFirstBreakRun(MarkFirstBreak(s)) == s[..i] + " " + s[j..]
  {
    MarkFirstBreakAt(s, i, k, j);
    JoinMarkedBreak(s, i, j, s[..i] + "\n" + s[j..]);
  }

  /** Step 3 after step 2 has left a lone line feed at `i`. */
  lemma JoinMarkedBreak(s: string, i: nat, j: nat, t: string)
    requires i <= j <= |s| && t == s[..i] + "\n" + s[j..]
    requires forall m :: 0 <= m < i ==> NotLineBreak(s[m])
    requires j < |s| ==> !IsLineBreak(s[j])
    ensures JoinFirstBreakRun(t) == s[..i] + " " + s[j..]
  {
    forall m | 0 <= m < i ensures NotLineBreak(t[m]) {
      assert t[m] == s[m];
    }
    assert i + 1 < |t| ==> t[i + 1] == s[j];
    JoinRunAt(t, i, i + 1);
    assert t[..i] == s[..i];
    assert t[i + 1..] == s[j..];
  }

  lemma CollapseLongRunAt(s: string, i: nat, k: nat, r: nat)
    requires i <= k && k + 1 < r <= |s|
    requires forall m :: 0 <= m < k ==> NotLineBreak(s[m])
    requires forall m :: i <= m < k ==> IsBlank(s[m])
    requires i > 0 ==> !IsBlank(s[i - 1])
    requires forall m :: k <= m < r ==> IsLineBreak(s[m])
    requires r < |s| ==> !IsLineBreak(s[r])
    ensures JoinFirstBreakRun(MarkFirstBreak(s)) == s[..i] + " " + s[r..]
  {
    MarkFirstBreakAt(s, i, k, k + 1);
    JoinMarkedRun(s, i, k, r, s[..i] + "\n" + s[k + 1..]);
  }

  /** Step 3 after step 2 has replaced the start of a longer run by a line
      feed at `i`: the line feed and the rest of the run go together. */
  lemma JoinMarkedRun(s: string, i: nat, k: nat, r: nat, t: string)
    requires i <= k && k + 1 < r <= |s| && t == s[..i] + "\n" + s[k + 1..]
    requires forall m :: 0 <= m < i ==> NotLineBreak(s[m])
    requires forall m :: k < m < r ==> IsLineBreak(s[m])
    requires r < |s| ==> !IsLineBreak(s[r])
    ensures JoinFirstBreakRun(t) == s[..i] + " " + s[r..]
  {
    MarkedRunLayout(s, i, k, r, t);
    JoinRunAt(t, i, r - (k - i));
  }

  /** Where the pieces of `s` sit in `t`, the text after step 2. */
  lemma MarkedRunLayout(s: string, i: nat, k: nat, r: nat, t: string)
    requires i <= k && k + 1 < r <= |s| && t == s[..i] + "\n" + s[k + 1..]
    requires forall m :: 0 <= m < i ==> NotLineBreak(s[m])
    requires forall m :: k < m < r ==> IsLineBreak(s[m])
    requires r < |s| ==> !IsLineBreak(s[r])
    ensures var d := k - i;
      && i < r - d <= |t|
      && (forall m :: 0 <= m < i ==> NotLineBreak(t[m]))
      && (forall m :: i <= m < r - d ==> IsLineBreak(t[m]))
      && (r - d < |t| ==> !IsLineBreak(t[r - d]))
      && t[..i] + " " + t[r - d..] == s[..i] + " " + s[r..]
  {
    var d := k - i;
    forall m | 0 <= m < i ensures NotLineBreak(t[m]) {
      assert t[m] == s[m];
    }
    forall m | i < m < |t| ensures t[m] == s[m + d] {
    }
    assert t[..i] == s[..i];
    assert t[r - d..] == s[r..];
  }

  /** Where the five pieces of `x + b1 + n + b2 + y` sit. */
  lemma Pieces(x: string, b1: string, n: string, b2: string, y: string)
    ensures var s := x + b1 + n + b2 + y;
      var k := |x| + |b1|;
      && s[..|x|] == x
      && s[|x|..k] == b1
      && s[k..k + |n|] == n
      && s[k + |n|..k + |n| + |b2|] == b2
      && s[k + |n|..] == b2 + y
      && s[k + |n| + |b2|..] == y
  {
    var s := x + b1 + n + b2 + y;
    var k := |x| + |b1|;
    assert s == (x + b1) + n + (b2 + y);
  }

  /** One line-break run `n` between two lines, with blanks `b1` and `b2`
      around it, becomes one space. Step 2 eats the blanks on both sides
      only when the run is a single character; otherwise the blanks after
      the run survive. */
  lemma JoinSingleBreakRun(x: string, b1: string, n: string, b2: string, y: string)
    requires !HasLineBreak(x) && (|x| > 0 ==> !IsBlank(x[|x| - 1]))
    requires forall m :: 0 <= m < |b1| ==> IsBlank(b1[m])
    requires |n| > 0 && forall m :: 0 <= m < |n| ==> IsLineBreak(n[m])
    requires forall m :: 0 <= m < |b2| ==> IsBlank(b2[m])
    requires |y| > 0 ==> !IsBlank(y[0]) && !IsLineBreak(y[0])
    ensures |n| == 1 ==> JoinFirstBreakRun(MarkFirstBreak(x + b1 + n + b2 + y)) == x + " " + y
    ensures |n| > 1 ==> JoinFirstBreakRun(MarkFirstBreak(x + b1 + n + b2 + y)) == x + " " + (b2 + y)
  {
    SingleRunLayout(x, b1, n, b2, y);
    if |n| == 1 {
      JoinOneBreak(x, b1, n, b2, y);
    } else {
      JoinLongRun(x, b1, n, b2, y);
    }
  }

  lemma JoinOneBreak(x: string, b1: string, n: string, b2: string, y: string)
    requires |n| == 1
    requires var s := x + b1 + n + b2 + y;
      var k := |x| + |b1|;
      var j := k + 1 + |b2|;
      && j <= |s|
      && (forall m :: 0 <= m < k ==> NotLineBreak(s[m]))
      && (forall m :: |x| <= m < k ==> IsBlank(s[m]))
      && (|x| > 0 ==> !IsBlank(s[|x| - 1]))
      && IsLineBreak(s[k])
      && (forall m :: k < m < j ==> IsBlank(s[m]))
      && (j < |s| ==> !IsBlank(s[j]) && !IsLineBreak(s[j]))
      && s[..|x|] == x && s[j..] == y
    ensures JoinFirstBreakRun(MarkFirstBreak(x + b1 + n + b2 + y)) == x + " " + y
  {
    var s := x + b1 + n + b2 + y;
    var k := |x| + |b1|;
    CollapseOneBreakAt(s, |x|, k, k + 1 + |b2|);
  }

  lemma JoinLongRun(x: string, b1: string, n: string, b2: string, y: string)
    requires |n| > 1
    requires var s := x + b1 + n + b2 + y;
      var k := |x| + |b1|;
      var r := k + |n|;
      && r <= |s|
      && (forall m :: 0 <= m < k ==> NotLineBreak(s[m]))
      && (forall m :: |x| <= m < k ==> IsBlank(s[m]))
      && (|x| > 0 ==> !IsBlank(s[|x| - 1]))
      && (forall m :: k <= m < r ==> IsLineBreak(s[m]))
      && (r < |s| ==> !IsLineBreak(s[r]))
      && s[..|x|] == x && s[r..] == b2 + y
    ensures JoinFirstBreakRun(MarkFirstBreak(x + b1 + n + b2 + y)) == x + " " + (b2 + y)
  {
    var s := x + b1 + n + b2 + y;
    var k := |x| + |b1|;
    CollapseLongRunAt(s, |x|, k, k + |n|);
  }

  /** The positions in `x + b1 + n + b2 + y` that `CollapseBreakRunAt`
      asks about. */
  lemma SingleRunLayout(x: string, b1: string, n: string, b2: string, y: string)
    requires !HasLineBreak(x) && (|x| > 0 ==> !IsBlank(x[|x| - 1]))
    requires forall m :: 0 <= m < |b1| ==> IsBlank(b1[m])
    requires |n| > 0 && forall m :: 0 <= m < |n| ==> IsLineBreak(n[m])
    requires forall m :: 0 <= m < |b2| ==> IsBlank(b2[m])
    requires |y| > 0 ==> !IsBlank(y[0]) && !IsLineBreak(y[0])
    ensures var s := x + b1 + n + b2 + y;
      var k := |x| + |b1|;
      var r := k + |n|;
      var j := r + |b2|;
      && j <= |s|
      && (forall m :: 0 <= m < k ==> NotLineBreak(s[m]))
      && (forall m :: |x| <= m < k ==> IsBlank(s[m]))
      && (|x| > 0 ==> !IsBlank(s[|x| - 1]))
      && (forall m :: k <= m < r ==> IsLineBreak(s[m]))
      && (forall m :: r <= m < j ==> IsBlank(s[m]))
      && (j < |s| ==> !IsBlank(s[j]) && !IsLineBreak(s[j]))
      && s[..|x|] == x && s[r..] == b2 + y && s[j..] == y
  {
    var s := x + b1 + n + b2 + y;
    var k := |x| + |b1|;
    var r := k + |n|;
    var j := r + |b2|;
    Pieces(x, b1, n, b2, y);
    forall m | 0 <= m < |x| ensures NotLineBreak(x[m]) {
    }
    CopyAll(s, 0, x, NotLineBreak);
    forall m | 0 <= m < |b1| ensures NotLineBreak(b1[m]) {
    }
    CopyAll(s, |x|, b1, NotLineBreak);
    CopyAll(s, |x|, b1, IsBlank);
    CopyAll(s, k, n, IsLineBreak);
    CopyAll(s, r, b2, IsBlank);
    assert |x| > 0 ==> s[|x| - 1] == x[|x| - 1];
    assert j < |s| ==> s[j] == y[0];
  }

  /** Two lines around one line-break run normalise to the lines joined by
      one space; blanks after a run longer than one character survive. */
  lemma NormalizeSingleBreakRun(x: string, b1: string, n: string, b2: string, y: string)
    requires !HasLineBreak(x) && |x| > 0 && !IsTrimSpace(x[0]) && !IsBlank(x[|x| - 1])
    requires forall m :: 0 <= m < |b1| ==> IsBlank(b1[m])
    requires |n| > 0 && forall m :: 0 <= m < |n| ==> IsLineBreak(n[m])
    requires forall m :: 0 <= m < |b2| ==> IsBlank(b2[m])
    requires |y| > 0 && !IsBlank(y[0]) && !IsLineBreak(y[0])
    requires !IsTrimSpace(y[|y| - 1])
    requires y[|y| - 1] == Ellipsis ==> |y| > 1 && !IsSpaceClass(y[|y| - 2])
    ensures |n| == 1 ==> Normalize(x + b1 + n + b2 + y) == x + " " + y
    ensures |n| > 1 ==> Normalize(x + b1 + n + b2 + y) == x + " " + (b2 + y)
  {
    var s := x + b1 + n + b2 + y;
    PlainEndLayout(x + b1 + n + b2, y, s);
    JoinSingleBreakRun(x, b1, n, b2, y);
    var u := JoinFirstBreakRun(MarkFirstBreak(s));
    assert Normalize(s) == Trim(u);
    if |n| == 1 {
      JoinedLinesTrimmed(x, y, u);
    } else {
      var z := b2 + y;
      assert z[|z| - 1] == y[|y| - 1];
      JoinedLinesTrimmed(x, z, u);
    }
  }

  /** Two lines joined by a space, with visible characters at the outer
      ends, are left alone by `trim`. */
  lemma JoinedLinesTrimmed(x: string, z: string, u: string)
    requires |x| > 0 && !IsTrimSpace(x[0])
    requires |z| > 0 && !IsTrimSpace(z[|z| - 1])
    requires u == x + " " + z
    ensures Trim(u) == u
  {
    assert u[0] == x[0] && u[|u| - 1] == z[|z| - 1];
    TrimKeepsTrimmed(u);
  }

  /** Step 1 leaves `w + y` alone when `y` ends as a second line may. */
  lemma PlainEndLayout(w: string, y: string, s: string)
    requires s == w + y && |y| > 0 && !IsTrimSpace(y[|y| - 1])
    requires y[|y| - 1] == Ellipsis ==> |y| > 1 && !IsSpaceClass(y[|y| - 2])
    ensures CollapseEllipsis(s) == s
  {
    assert s[|s| - 1] == y[|y| - 1];
    assert |y| > 1 ==> s[|s| - 2] == y[|y| - 2];
    ClassesNest(y[|y| - 1]);
    CollapseEllipsisKeepsPlainEnd(s);
  }

  /** A paragraph break becomes one space: `"a\n\nb"` normalises to `"a b"`. */
  lemma ParagraphBreakExample()
    ensures Normalize("a\n\nb") == "a b"
  {
    assert "a" + "" + "\n\n" + "" + "b" == "a\n\nb";
    assert "a" + " " + ("" + "b") == "a b";
    NormalizeSingleBreakRun("a", "", "\n\n", "", "b");
  }

  /** A document truncated in its second paragraph, as the default
      strategy produces: the paragraph break becomes one space and the
      ellipsis stays. */
  lemma TruncatedParagraphsExample()
    ensures Normalize("aliqua.\n\nUt enim ad minim" + [Ellipsis]) == "aliqua. Ut enim ad minim" + [Ellipsis]
  {
    var y := "Ut enim ad minim" + [Ellipsis];
    assert "aliqua." + "" + "\n\n" + "" + y == "aliqua.\n\nUt enim ad minim" + [Ellipsis];
    assert "aliqua." + " " + ("" + y) == "aliqua. Ut enim ad minim" + [Ellipsis];
    ClassesNest(Ellipsis);
    NormalizeSingleBreakRun("aliqua.", "", "\n\n", "", y);
  }

  /** White space before a final ellipsis goes in multi-line text too:
      `"a\n\nb \t…"` normalises to `"a b…"`. */
  lemma SpacedTruncationExample()
    ensures Normalize("a\n\nb \t" + [Ellipsis]) == "a b" + [Ellipsis]
  {
    var s := "a\n\nb \t" + [Ellipsis];
    var t := "a\n\nb" + [Ellipsis];
    assert s == "a\n\nb" + " \t" + [Ellipsis] + [];
    SpacedEllipsisStep("a\n\nb", " \t", []);
    ClassesNest(Ellipsis);
    CollapseEllipsisKeepsPlainEnd(t);
    SameAfterStepOne(s, t);
    TruncatedExampleShort();
  }

  /** Text whose step 1 result is a fixed point of step 1 normalises like
      that result. */
  lemma SameAfterStepOne(s: string, t: string)
    requires CollapseEllipsis(s) == t && CollapseEllipsis(t) == t
    ensures Normalize(s) == Normalize(t)
  {
  }

  /** `"a\n\nb…"` normalises to `"a b…"`. */
  lemma TruncatedExampleShort()
    ensures Normalize("a\n\nb" + [Ellipsis]) == "a b" + [Ellipsis]
  {
    var y := "b" + [Ellipsis];
    assert "a" + "" + "\n\n" + "" + y == "a\n\nb" + [Ellipsis];
    assert "a" + " " + ("" + y) == "a b" + [Ellipsis];
    ClassesNest(Ellipsis);
    NormalizeSingleBreakRun("a", "", "\n\n", "", y);
  }

  /** Only the first break run is rewritten per call, so normalising is not
      idempotent: a second call rewrites the next break. */
  lemma NormalizeNotIdempotent()
    ensures Normalize("a\nb\nc") == "a b\nc"
    ensures Normalize(Normalize("a\nb\nc")) == "a b c"
  {
    FirstOfTwoBreaks();
    LastBreak();
  }

  lemma FirstOfTwoBreaks()
    ensures Normalize("a\nb\nc") == "a b\nc"
  {
    assert "a" + "" + "\n" + "" + "b\nc" == "a\nb\nc";
    assert "a" + " " + "b\nc" == "a b\nc";
    NormalizeSingleBreakRun("a", "", "\n", "", "b\nc");
  }

  lemma LastBreak()
    ensures Normalize("a b\nc") == "a b c"
  {
    assert "a b" + "" + "\n" + "" + "c" == "a b\nc";
    assert "a b" + " " + "c" == "a b c";
    NormalizeSingleBreakRun("a b", "", "\n", "", "c");
  }

  /** White space (`[\t\r\n ]`) before a final ellipsis disappears, and so
      does white space after it, line breaks included: the description ends
      in the ellipsis right after the last character of `p`. Line breaks
      inside `p` do not reach the end; when there are none and `p` starts
      with a visible character, the description is exactly `p` and the
      ellipsis. */
  lemma NormalizeTrailingEllipsis(p: string, w1: string, w2: string)
    requires |p| > 0 && !IsSpaceClass(p[|p| - 1])
    requires |w1| > 0 && forall m :: 0 <= m < |w1| ==> IsSpaceClass(w1[m])
    requires forall m :: 0 <= m < |w2| ==> IsSpaceClass(w2[m])
    ensures var r := Normalize(p + w1 + [Ellipsis] + w2);
      && |r| > 0 && r[|r| - 1] == Ellipsis
      && (|r| > 1 ==> r[|r| - 2] == p[|p| - 1])
    ensures !HasLineBreak(p) && !IsTrimSpace(p[0]) ==>
      Normalize(p + w1 + [Ellipsis] + w2) == p + [Ellipsis]
  {
    var s := p + w1 + [Ellipsis] + w2;
    var t := p + [Ellipsis];
    SpacedEllipsisStep(p, w1, w2);
    assert t[|t| - 1] == Ellipsis && t[|t| - 2] == p[|p| - 1];
    EllipsisTail(t);
    if !HasLineBreak(p) && !IsTrimSpace(p[0]) {
      SingleLineEllipsis(p, s);
    }
  }

  /** Steps 2 to 4 keep a final ellipsis and the visible character before
      it. */
  lemma EllipsisTail(t: string)
    requires |t| > 1 && t[|t| - 1] == Ellipsis && !IsSpaceClass(t[|t| - 2])
    ensures var r := Trim(JoinFirstBreakRun(MarkFirstBreak(t)));
      && |r| > 0 && r[|r| - 1] == Ellipsis
      && (|r| > 1 ==> r[|r| - 2] == t[|t| - 2])
  {
    ClassesNest(Ellipsis);
    var u := MarkFirstBreak(t);
    StepKeepsTail(FirstLineBreak, t, "\n");
    var v := JoinFirstBreakRun(u);
    StepKeepsTail(LineBreakRun, u, " ");
    TrimKeepsEnd(v);
  }

  /** The single-line case of `NormalizeTrailingEllipsis`. */
  lemma SingleLineEllipsis(p: string, s: string)
    requires |p| > 0 && !HasLineBreak(p) && !IsTrimSpace(p[0])
    requires CollapseEllipsis(s) == p + [Ellipsis]
    ensures Normalize(s) == p + [Ellipsis]
  {
    var r := p + [Ellipsis];
    ClassesNest(Ellipsis);
    forall m | 0 <= m < |r| ensures !IsLineBreak(r[m]) {
      if m < |p| {
        assert r[m] == p[m];
      } else {
        ClassesNest(r[m]);
      }
    }
    NoBreakAfterStepOne(s);
    assert r[0] == p[0] && r[|r| - 1] == Ellipsis;
    TrimKeepsTrimmed(r);
  }

  /** Steps 2 and 3 only rewrite white space, so they keep the last two
      characters of text whose last two characters are not white space. */
  lemma StepKeepsTail(p: Pattern, s: string, replacement: string)
    requires p != SpacedEllipsisAtEnd
    requires |s| > 1 && !IsSpaceClass(s[|s| - 1]) && !IsSpaceClass(s[|s| - 2])
    ensures var r := Replace(p, s, replacement);
      |r| > 1 && r[|r| - 1] == s[|s| - 1] && r[|r| - 2] == s[|s| - 2]
  {
    match Find(p, s)
    case None =>
    case Some((i, j)) =>
      ReplaceFirst(p, s, replacement, i, j);
      forall m | i <= m < j ensures IsSpaceClass(s[m]) {
        ClassesNest(s[m]);
        if p == FirstLineBreak {
          var k :| BreakSplit(s, i, k, j);
        }
      }
      assert i < j by {
        if p == FirstLineBreak {
          var k :| BreakSplit(s, i, k, j);
        }
      }
      assert j - 1 != |s| - 1 && j - 1 != |s| - 2;
      var r := Replace(p, s, replacement);
      assert r == s[..i] + replacement + s[j..];
  }

  /** `trim` keeps the end of text that ends in a visible character: the
      result is a nonempty suffix. */
  lemma TrimKeepsEnd(v: string)
    requires |v| > 0 && !IsTrimSpace(v[|v| - 1])
    ensures var r := Trim(v);
      |r| > 0 && r == v[|v| - |r|..]
  {
    SkipBackwardAt(v, |v|, IsTrimSpace, |v|);
  }

  /** Step 1 on `p + w1 + [Ellipsis] + w2` with white-space runs `w1` and
      `w2` keeps `p` and the ellipsis only. */
  lemma SpacedEllipsisStep(p: string, w1: string, w2: string)
    requires |p| > 0 && !IsSpaceClass(p[|p| - 1])
    requires |w1| > 0 && forall m :: 0 <= m < |w1| ==> IsSpaceClass(w1[m])
    requires forall m :: 0 <= m < |w2| ==> IsSpaceClass(w2[m])
    ensures CollapseEllipsis(p + w1 + [Ellipsis] + w2) == p + [Ellipsis]
  {
    CollapseEllipsisEnds(p, w1, w2);
    var r := CollapseEllipsis(p + w1 + [Ellipsis] + w2);
    assert |r| - 1 == |p|;
    assert r[..|r| - 1] == p;
    assert r == r[..|r| - 1] + [r[|r| - 1]];
  }

  /** White space before a final ellipsis disappears:
      "ad minim", a space, a tab and the ellipsis normalises to
      "ad minim" and the ellipsis. */
  lemma TrailingEllipsisExample()
    ensures Normalize("ad minim \t" + [Ellipsis]) == "ad minim" + [Ellipsis]
  {
    assert "ad minim \t" + [Ellipsis] == "ad minim" + " \t" + [Ellipsis] + [];
    SpacedEllipsisStep("ad minim", " \t", []);
    SingleLineEllipsis("ad minim", "ad minim \t" + [Ellipsis]);
  }
}

=== FILE: first_match.dfy ===
/** `String.prototype.replace` with a non-global regular expression: the
    first match is replaced, nothing else is touched.

    The normaliser uses three patterns. Each is a run of one class, or a
    single character flanked by greedy runs of a class that does not
    contain it. For such patterns the backtracking engine's match is the
    leftmost one, and at that start the longest, so "first match" is
    defined here as "leftmost start, then longest end". */
module FirstMatch {
  import opened Optional
  import opened CharClasses

  datatype Pattern =
    | SpacedEllipsisAtEnd  // [\t\r\n ]+…[\t \r\n]*$
    | FirstLineBreak       // [\t ]*[\r\n][\t ]*
    | LineBreakRun         // [\r\n]+

  /** `s[i..j]` is a nonempty space run, the ellipsis at `e`, then a space run. */
  ghost predicate EllipsisSplit(s: string, i: int, e: int, j: int) {
    && 0 <= i < e < j <= |s|
    && s[e] == Ellipsis
    && (forall m :: i <= m < e ==> IsSpaceClass(s[m]))
    && (forall m :: e < m < j ==> IsSpaceClass(s[m]))
  }

  /** `s[i..j]` is a blank run, the line break at `k`, then a blank run. */
  ghost predicate BreakSplit(s: string, i: int, k: int, j: int) {
    && 0 <= i <= k < j <= |s|
    && IsLineBreak(s[k])
    && (forall m :: i <= m < k ==> IsBlank(s[m]))
    && (forall m :: k < m < j ==> IsBlank(s[m]))
  }

  /** The pattern `p` matches `s[i..j]`; `$` pins the first pattern's end. */
  ghost predicate MatchAt(p: Pattern, s: string, i: int, j: int) {
    && 0 <= i <= j <= |s|
    && match p
       case SpacedEllipsisAtEnd => j == |s| && exists e :: EllipsisSplit(s, i, e, j)
       case FirstLineBreak => exists k :: BreakSplit(s, i, k, j)
       case LineBreakRun => i < j && forall m :: i <= m < j ==> IsLineBreak(s[m])
  }

  /** `s[i..j]` is the match `replace` finds: no match starts earlier, and
      none starting at `i` ends later. */
  ghost predicate IsFirstMatch(p: Pattern, s: string, i: int, j: int) {
    && MatchAt(p, s, i, j)
    && (forall i', j' :: 0 <= i' < i && i' <= j' <= |s| ==> !MatchAt(p, s, i', j'))
    && (forall j' :: j < j' <= |s| ==> !MatchAt(p, s, i, j'))
  }

  ghost predicate NoMatch(p: Pattern, s: string) {
    forall i, j :: 0 <= i <= j <= |s| ==> !MatchAt(p, s, i, j)
  }

  /** There is at most one first match. */
  lemma FirstMatchUnique(p: Pattern, s: string, i: int, j: int)
    requires IsFirstMatch(p, s, i, j)
    ensures forall i', j' :: IsFirstMatch(p, s, i', j') ==> i' == i && j' == j
  {
  }

  /** The end of the run of `P`-characters starting at `from`. */
  function SkipForward(s: string, from: nat, P: char -> bool): (k: nat)
    requires from <= |s|
    ensures from <= k <= |s|
    ensures forall m :: from <= m < k ==> P(s[m])
    ensures k < |s| ==> !P(s[k])
    decreases |s| - from
  {
    if from == |s| || !P(s[from]) then from else SkipForward(s, from + 1, P)
  }

  /** The start of the run of `P`-characters ending just before `upTo`. */
  function SkipBackward(s: string, upTo: nat, P: char -> bool): (i: nat)
    requires upTo <= |s|
    ensures i <= upTo
    ensures forall m :: i <= m < upTo ==> P(s[m])
    ensures i > 0 ==> !P(s[i - 1])
    decreases upTo
  {
    if upTo == 0 || !P(s[upTo - 1]) then upTo else SkipBackward(s, upTo - 1, P)
  }

  /** A run end is determined by its defining properties. */
  lemma SkipForwardAt(s: string, from: nat, P: char -> bool, k: nat)
    requires from <= k <= |s|
    requires forall m :: from <= m < k ==> P(s[m])
    requires k < |s| ==> !P(s[k])
    ensures SkipForward(s, from, P) == k
  {
  }

  /** A run start is determined by its defining properties. */
  lemma SkipBackwardAt(s: string, upTo: nat, P: char -> bool, i: nat)
    requires i <= upTo <= |s|
    requires forall m :: i <= m < upTo ==> P(s[m])
    requires i > 0 ==> !P(s[i - 1])
    ensures SkipBackward(s, upTo, P) == i
  {
  }

  // ---------------------------------------------------------------------
  // [\t\r\n ]+…[\t \r\n]*$

  /** Any match of the trailing-ellipsis pattern is anchored on the last
      character outside `[\t\r\n ]`, which must be the ellipsis, and the
      match covers the space run before it. */
  lemma SpacedEllipsisShape(s: string, i: int, j: int)
    ensures MatchAt(SpacedEllipsisAtEnd, s, i, j) ==>
      var n := SkipBackward(s, |s|, IsSpaceClass);
      && 0 < n && s[n - 1] == Ellipsis && j == |s|
      && EllipsisSplit(s, i, n - 1, j)
  {
    var n := SkipBackward(s, |s|, IsSpaceClass);
    if MatchAt(SpacedEllipsisAtEnd, s, i, j) {
      var e :| EllipsisSplit(s, i, e, j);
      assert e == n - 1;
    }
  }

  function FindSpacedEllipsis(s: string): (m: Option<(nat, nat)>)
    ensures m.Some? ==> IsFirstMatch(SpacedEllipsisAtEnd, s, m.value.0, m.value.1)
    ensures m.None? ==> NoMatch(SpacedEllipsisAtEnd, s)
  {
    var n := SkipBackward(s, |s|, IsSpaceClass);
    if n == 0 || s[n - 1] != Ellipsis then
      NoSpacedEllipsis(s); None
    else
      var i := SkipBackward(s, n - 1, IsSpaceClass);
      if i == n - 1 then
        NoSpacedEllipsis(s); None
      else
        SpacedEllipsisFirst(s, i); Some((i, |s|))
  }

  lemma NoSpacedEllipsis(s: string)
    requires var n := SkipBackward(s, |s|, IsSpaceClass);
      n == 0 || s[n - 1] != Ellipsis || SkipBackward(s, n - 1, IsSpaceClass) == n - 1
    ensures NoMatch(SpacedEllipsisAtEnd, s)
  {
    forall i, j | 0 <= i <= j <= |s|
      ensures !MatchAt(SpacedEllipsisAtEnd, s, i, j)
    {
      SpacedEllipsisShape(s, i, j);
    }
  }

  lemma SpacedEllipsisFirst(s: string, i: nat)
    requires var n := SkipBackward(s, |s|, IsSpaceClass);
      n > 0 && s[n - 1] == Ellipsis && i == SkipBackward(s, n - 1, IsSpaceClass) && i < n - 1
    ensures IsFirstMatch(SpacedEllipsisAtEnd, s, i, |s|)
  {
    var n := SkipBackward(s, |s|, IsSpaceClass);
    assert EllipsisSplit(s, i, n - 1, |s|);
    forall i', j' | 0 <= i' < i && i' <= j' <= |s|
      ensures !MatchAt(SpacedEllipsisAtEnd, s, i', j')
    {
      SpacedEllipsisShape(s, i', j');
    }
  }

  /** The first match of the trailing-ellipsis pattern starts at the start
      of the whole space run before the final ellipsis. */
  lemma SpacedEllipsisFirstStart(s: string, i: int, j: int)
    requires IsFirstMatch(SpacedEllipsisAtEnd, s, i, j)
    ensures var n := SkipBackward(s, |s|, IsSpaceClass);
      && 0 < n && j == |s|
      && i == SkipBackward(s, n - 1, IsSpaceClass)
  {
    SpacedEllipsisShape(s, i, j);
    var n := SkipBackward(s, |s|, IsSpaceClass);
    var start := SkipBackward(s, n - 1, IsSpaceClass);
    assert start <= i;
    assert EllipsisSplit(s, start, n - 1, |s|);
    assert MatchAt(SpacedEllipsisAtEnd, s, start, |s|);
  }

  // ---------------------------------------------------------------------
  // [\t ]*[\r\n][\t ]*

  /** Any match of the line-break pattern holds a line break at or after the
      first line break of `s`. */
  lemma BreakShape(s: string, i: int, j: int)
    ensures MatchAt(FirstLineBreak, s, i, j) ==>
      var k := SkipForward(s, 0, NotLineBreak);
      && k < |s|
      && (i <= k ==> BreakSplit(s, i, k, j))
  {
    var k := SkipForward(s, 0, NotLineBreak);
    if MatchAt(FirstLineBreak, s, i, j) {
      var k' :| BreakSplit(s, i, k', j);
      assert k <= k';
      if i <= k {
        assert k' == k;
      }
    }
  }

  function FindFirstLineBreak(s: string): (m: Option<(nat, nat)>)
    ensures m.Some? ==> IsFirstMatch(FirstLineBreak, s, m.value.0, m.value.1)
    ensures m.None? ==> NoMatch(FirstLineBreak, s)
  {
    var k := SkipForward(s, 0, NotLineBreak);
    if k == |s| then
      NoBreak(s); None
    else
      var i := SkipBackward(s, k, IsBlank);
      var j := SkipForward(s, k + 1, IsBlank);
      FirstBreak(s, i, j); Some((i, j))
  }

  lemma NoBreak(s: string)
    requires SkipForward(s, 0, NotLineBreak) == |s|
    ensures NoMatch(FirstLineBreak, s)
  {
    forall i, j | 0 <= i <= j <= |s|
      ensures !MatchAt(FirstLineBreak, s, i, j)
    {
      BreakShape(s, i, j);
    }
  }

  lemma FirstBreak(s: string, i: nat, j: nat)
    requires var k := SkipForward(s, 0, NotLineBreak);
      k < |s| && i == SkipBackward(s, k, IsBlank) && j == SkipForward(s, k + 1, IsBlank)
    ensures IsFirstMatch(FirstLineBreak, s, i, j)
  {
    var k := SkipForward(s, 0, NotLineBreak);
    assert BreakSplit(s, i, k, j);
    forall i', j' | 0 <= i' < i && i' <= j' <= |s|
      ensures !MatchAt(FirstLineBreak, s, i', j')
    {
      BreakShape(s, i', j');
    }
    forall j' | j < j' <= |s|
      ensures !MatchAt(FirstLineBreak, s, i, j')
    {
      BreakShape(s, i, j');
    }
  }

  // ---------------------------------------------------------------------
  // [\r\n]+

  /** Any match of the line-break-run pattern starts at or after the first
      line break, and one starting there ends within the run. */
  lemma RunShape(s: string, i: int, j: int)
    ensures MatchAt(LineBreakRun, s, i, j) ==>
      var k := SkipForward(s, 0, NotLineBreak);
      && k <= i < |s|
      && (i == k ==> j <= SkipForward(s, k + 1, IsLineBreak))
  {
    var k := SkipForward(s, 0, NotLineBreak);
    if MatchAt(LineBreakRun, s, i, j) {
      assert IsLineBreak(s[i]);
    }
  }

  function FindLineBreakRun(s: string): (m: Option<(nat, nat)>)
    ensures m.Some? ==> IsFirstMatch(LineBreakRun, s, m.value.0, m.value.1)
    ensures m.None? ==> NoMatch(LineBreakRun, s)
  {
    var k := SkipForward(s, 0, NotLineBreak);
    if k == |s| then
      NoRun(s); None
    else
      var j := SkipForward(s, k + 1, IsLineBreak);
      FirstRun(s, j); Some((k, j))
  }

  lemma NoRun(s: string)
    requires SkipForward(s, 0, NotLineBreak) == |s|
    ensures NoMatch(LineBreakRun, s)
  {
    forall i, j | 0 <= i <= j <= |s|
      ensures !MatchAt(LineBreakRun, s, i, j)
    {
      RunShape(s, i, j);
    }
  }

  lemma FirstRun(s: string, j: nat)
    requires var k := SkipForward(s, 0, NotLineBreak);
      k < |s| && j == SkipForward(s, k + 1, IsLineBreak)
    ensures IsFirstMatch(LineBreakRun, s, SkipForward(s, 0, NotLineBreak), j)
  {
    var k := SkipForward(s, 0, NotLineBreak);
    forall i', j' | 0 <= i' < k && i' <= j' <= |s|
      ensures !MatchAt(LineBreakRun, s, i', j')
    {
      RunShape(s, i', j');
    }
    forall j' | j < j' <= |s|
      ensures !MatchAt(LineBreakRun, s, k, j')
    {
      RunShape(s, k, j');
    }
  }

  // ---------------------------------------------------------------------

  function Find(p: Pattern, s: string): (m: Option<(nat, nat)>)
    ensures m.Some? ==> IsFirstMatch(p, s, m.value.0, m.value.1)
    ensures m.None? ==> NoMatch(p, s)
  {
    match p
    case SpacedEllipsisAtEnd => FindSpacedEllipsis(s)
    case FirstLineBreak => FindFirstLineBreak(s)
    case LineBreakRun => FindLineBreakRun(s)
  }

  /** `s.replace(p, replacement)` for a regular expression without the `g`
      flag (and a replacement without `$` patterns). */
  function Replace(p: Pattern, s: string, replacement: string): (r: string)
    ensures forall i, j :: IsFirstMatch(p, s, i, j) ==> r == s[..i] + replacement + s[j..]
    ensures NoMatch(p, s) ==> r == s
  {
    match Find(p, s)
    case Some((i, j)) =>
      FirstMatchUnique(p, s, i, j);
      s[..i] + replacement + s[j..]
    case None => s
  }
}

=== FILE: js_values.dfy ===
/** The slice of JavaScript's value model the plugin's decisions depend on:
    which values are `undefined`, which are truthy, which are numbers, and
    property lookup on plain record objects such as `file.data.meta`. */
module JsValues {

  /** A reference to a hast node (a root or an element) inside the document
      tree. The tree itself is held by the caller; the handle only names a
      node. `positionsRemoved` records that `removePosition` has stripped the
      source positions from the subtree under this node. */
  datatype Node = Node(handle: nat, positionsRemoved: bool)

  /** `removePosition(node, true)`: strips every position from the subtree.
      Only the effect on the handle is modelled. */
  function RemovePosition(node: Node): (stripped: Node)
    ensures stripped.handle == node.handle
    ensures stripped.positionsRemoved
  {
    node.(positionsRemoved := true)
  }

  /** A JavaScript value as far as the plugin can tell them apart.
      `Hast` is a tree node stored as a value, `Obj` any other object
      (an array, a function, a plain object). */
  datatype Value =
    | Undefined
    | Null
    | Bool(b: bool)
    | Num(n: int)
    | Str(s: string)
    | Hast(node: Node)
    | Obj

  /** The falsy values of `ToBoolean` (section 7.1.2 of ECMA-262) among the
      values modelled here. */
  const Falsy: set<Value> := {Undefined, Null, Bool(false), Num(0), Str("")}

  /** JavaScript truthiness, as `if`, `!` and `&&` test it. */
  predicate Truthy(v: Value)
    ensures Truthy(v) <==> v !in Falsy
  {
    match v
    case Undefined => false
    case Null => false
    case Bool(b) => b
    case Num(n) => n != 0
    case Str(s) => s != ""
    case Hast(_) => true
    case Obj => true
  }

  /** A string is truthy exactly when it is not empty. */
  lemma StringTruthy(s: string)
    ensures Truthy(Str(s)) <==> |s| > 0
  {
    if |s| > 0 {
      assert Str(s) != Str("") by { assert s != ""; }
    }
  }

  /** A plain object such as `file.data.meta` or `file.data.matter`. */
  type Record = map<string, Value>

  /** Property read `record[key]`: a missing key reads as `undefined`. */
  function Get(record: Record, key: string): (v: Value)
    ensures key !in record ==> v == Undefined
    ensures key in record ==> v == record[key]
  {
    if key in record then record[key] else Undefined
  }
}

=== FILE: optional.dfy ===
/** A result that may be missing: a selector or an excerpt search that found
    nothing, or a `file.data` entry that was never set. */
module Optional {
  datatype Option<T> = None | Some(value: T)
}

=== FILE: plugin.dfy ===
/** The plugin `rehypeInferDescriptionMeta`: its option defaults, the choice
    of the fragment that describes the document, and the writes of
    `description` and `descriptionHast` into `file.data.meta`.

    The hast utilities the plugin calls (`select`, `selectAll`, `excerpt`,
    `truncate`, `toText`) are not modelled; they are handed in as the
    fields of a `Library` and the plugin's decisions are stated for every
    choice of them. */
module InferDescription {
  import opened Optional
  import opened JsValues
  import opened CharClasses
  import opened Description

  // ---------------------------------------------------------------------
  // Options

  /** The options object. A property that is not given reads as
      `Undefined`; any other JavaScript value may be passed. */
  datatype Options = Options(
    selector: Value,
    comment: Value,
    truncateSize: Value,
    mainSelector: Value,
    ignoreSelector: Value,
    maxExcerptSearchSize: Value,
    inferDescriptionHast: Value)

  /** The plugin called without options: the parameter default `{}`. */
  const NoOptions: Options :=
    Options(Undefined, Undefined, Undefined, Undefined, Undefined, Undefined, Undefined)

  const DefaultComment: string := "more"
  const DefaultTruncateSize: int := 140
  const DefaultIgnoreSelector: string := "h1, script, style, noscript, template"

  /** A destructuring default: it replaces `undefined` only, so `null`,
      `false` or `''` are kept as given. */
  function WithDefault(v: Value, default: Value): (r: Value)
    ensures v != Undefined ==> r == v
    ensures v == Undefined ==> r == default
  {
    if v.Undefined? then default else v
  }

  /** The destructuring of `options` at the top of the plugin: four
      properties have defaults, the other three are passed on as given
      (in particular `maxExcerptSearchSize` has none here). */
  function Resolve(o: Options): (c: Options)
    ensures c.selector == o.selector
    ensures c.mainSelector == o.mainSelector
    ensures c.maxExcerptSearchSize == o.maxExcerptSearchSize
    ensures o.comment != Undefined ==> c.comment == o.comment
    ensures o.comment == Undefined ==> c.comment == Str(DefaultComment)
    ensures o.truncateSize != Undefined ==> c.truncateSize == o.truncateSize
    ensures o.truncateSize == Undefined ==> c.truncateSize == Num(DefaultTruncateSize)
    ensures o.ignoreSelector != Undefined ==> c.ignoreSelector == o.ignoreSelector
    ensures o.ignoreSelector == Undefined ==> c.ignoreSelector == Str(DefaultIgnoreSelector)
    ensures o.inferDescriptionHast != Undefined ==> c.inferDescriptionHast == o.inferDescriptionHast
    ensures o.inferDescriptionHast == Undefined ==> c.inferDescriptionHast == Bool(false)
  {
    Options(
      o.selector,
      WithDefault(o.comment, Str(DefaultComment)),
      WithDefault(o.truncateSize, Num(DefaultTruncateSize)),
      o.mainSelector,
      WithDefault(o.ignoreSelector, Str(DefaultIgnoreSelector)),
      o.maxExcerptSearchSize,
      WithDefault(o.inferDescriptionHast, Bool(false)))
  }

  /** The defaults of the plugin called without options. */
  lemma DefaultsOfNoOptions()
    ensures var c := Resolve(NoOptions);
      && c.selector == Undefined && c.mainSelector == Undefined
      && c.maxExcerptSearchSize == Undefined
      && c.comment == Str("more")
      && c.truncateSize == Num(140)
      && c.ignoreSelector == Str("h1, script, style, noscript, template")
      && c.inferDescriptionHast == Bool(false)
  {
  }

  /** Resolved options have nothing left to default: resolving again
      changes nothing. */
  lemma ResolveIdempotent(o: Options)
    ensures Resolve(Resolve(o)) == Resolve(o)
  {
  }

  // ---------------------------------------------------------------------
  // Collaborators

  /** The second argument of `excerpt`. */
  datatype ExcerptOptions = ExcerptOptions(comment: Value, ignore: seq<Node>, maxSearchSize: Value)

  /** The second argument of `truncate`. */
  datatype TruncateOptions = TruncateOptions(ignore: seq<Node>, size: int, ellipsis: string)

  /** The hast utilities, as the plugin sees them: `select` and `excerpt`
      may find nothing, `truncate` always returns a tree, `selectAll` a
      list of nodes and `toText` the plain text of a node. */
  datatype Library = Library(
    select: (Value, Node) -> Option<Node>,
    selectAll: (Value, Node) -> seq<Node>,
    excerpt: (Node, ExcerptOptions) -> Option<Node>,
    truncate: (Node, TruncateOptions) -> Node,
    toText: Node -> string)

  // ---------------------------------------------------------------------
  // Choosing the fragment

  /** The scope every strategy searches: the element `mainSelector`
      selects when that option is truthy (possibly none), the whole tree
      otherwise. */
  function MainScope(c: Options, lib: Library, tree: Node): (main: Option<Node>)
    ensures !Truthy(c.mainSelector) ==> main == Some(tree)
    ensures Truthy(c.mainSelector) ==> main == lib.select(c.mainSelector, tree)
  {
    if Truthy(c.mainSelector) then lib.select(c.mainSelector, tree) else Some(tree)
  }

  /** The nodes excerpting and truncation skip: `selectAll(ignoreSelector)`
      over the whole tree, not just the main scope. */
  function Ignored(c: Options, lib: Library, tree: Node): seq<Node> {
    lib.selectAll(c.ignoreSelector, tree)
  }

  /** The nodes to ignore are selected in the whole tree: `mainSelector`
      narrows where the fragment is sought, not what is ignored. */
  lemma IgnoredSpansWholeTree(c: Options, lib: Library, tree: Node, m: Value)
    ensures Ignored(c.(mainSelector := m), lib, tree) == Ignored(c, lib, tree)
    ensures Ignored(c, lib, tree) == lib.selectAll(c.ignoreSelector, tree)
  {
  }

  function ExcerptArgs(c: Options, lib: Library, tree: Node): ExcerptOptions {
    ExcerptOptions(c.comment, Ignored(c, lib, tree), c.maxExcerptSearchSize)
  }

  function TruncateArgs(c: Options, lib: Library, tree: Node): TruncateOptions
    requires c.truncateSize.Num?
  {
    TruncateOptions(Ignored(c, lib, tree), c.truncateSize.n, [Ellipsis])
  }

  /** The fragment the plugin describes the document by, computed as the
      three guarded assignments do: each later strategy runs only when
      there is a main scope, its option allows it, and no earlier one found
      a fragment. */
  function ChooseFragment(c: Options, lib: Library, tree: Node): (fragment: Option<Node>)
    ensures MainScope(c, lib, tree).None? ==> fragment.None?
  {
    var main := MainScope(c, lib, tree);
    var f1: Option<Node> :=
      if main.Some? && Truthy(c.selector) then lib.select(c.selector, main.value) else None;
    var f2: Option<Node> :=
      if main.Some? && Truthy(c.comment) && f1.None?
      then lib.excerpt(main.value, ExcerptArgs(c, lib, tree))
      else f1;
    var f3: Option<Node> :=
      if main.Some? && c.truncateSize.Num? && f2.None?
      then Some(lib.truncate(main.value, TruncateArgs(c, lib, tree)))
      else f2;
    f3
  }

  /** The three strategies, in the order they are tried. */
  datatype Strategy = BySelector | ByComment | ByTruncation

  const Waterfall: seq<Strategy> := [BySelector, ByComment, ByTruncation]

  /** Whether the options switch a strategy on. */
  predicate Enabled(c: Options, s: Strategy) {
    match s
    case BySelector => Truthy(c.selector)
    case ByComment => Truthy(c.comment)
    case ByTruncation => c.truncateSize.Num?
  }

  /** What one enabled strategy finds inside `main`. */
  function Attempt(c: Options, lib: Library, tree: Node, main: Node, s: Strategy): Option<Node>
    requires Enabled(c, s)
  {
    match s
    case BySelector => lib.select(c.selector, main)
    case ByComment => lib.excerpt(main, ExcerptArgs(c, lib, tree))
    case ByTruncation => Some(lib.truncate(main, TruncateArgs(c, lib, tree)))
  }

  /** Reference definition of the waterfall: the result of the first
      enabled strategy in `ss` that finds something. */
  function FirstFound(c: Options, lib: Library, tree: Node, main: Node, ss: seq<Strategy>): (r: Option<Node>)
    ensures r.Some? ==> exists i :: 0 <= i < |ss| && Enabled(c, ss[i]) && Attempt(c, lib, tree, main, ss[i]) == r
  {
    if |ss| == 0 then None
    else if Enabled(c, ss[0]) && Attempt(c, lib, tree, main, ss[0]).Some?
    then Attempt(c, lib, tree, main, ss[0])
    else
      var r := FirstFound(c, lib, tree, main, ss[1..]);
      assert r.Some? ==> exists i :: 1 <= i < |ss| && Enabled(c, ss[i]) && Attempt(c, lib, tree, main, ss[i]) == r by {
        if r.Some? {
          var i :| 0 <= i < |ss[1..]| && Enabled(c, ss[1..][i]) && Attempt(c, lib, tree, main, ss[1..][i]) == r;
          assert ss[1..][i] == ss[i + 1];
        }
      }
      r
  }

  /** The three assignments compute the first enabled strategy that finds
      a fragment, or nothing when there is no main scope. */
  lemma WaterfallIsFirstFound(c: Options, lib: Library, tree: Node)
    ensures var main := MainScope(c, lib, tree);
      ChooseFragment(c, lib, tree)
        == if main.None? then None else FirstFound(c, lib, tree, main.value, Waterfall)
  {
    var main := MainScope(c, lib, tree);
    if main.Some? {
      var m := main.value;
      var last := FirstFound(c, lib, tree, m, [ByTruncation]);
      assert [ByTruncation][1..] == [];
      assert last == if c.truncateSize.Num? then Attempt(c, lib, tree, m, ByTruncation) else None;
      var two := FirstFound(c, lib, tree, m, [ByComment, ByTruncation]);
      assert [ByComment, ByTruncation][1..] == [ByTruncation];
      assert two == if Enabled(c, ByComment) && Attempt(c, lib, tree, m, ByComment).Some?
        then Attempt(c, lib, tree, m, ByComment) else last;
      assert Waterfall[1..] == [ByComment, ByTruncation];
      assert FirstFound(c, lib, tree, m, Waterfall)
        == if Enabled(c, BySelector) && Attempt(c, lib, tree, m, BySelector).Some?
           then Attempt(c, lib, tree, m, BySelector) else two;
    }
  }

  /** A selector that matches inside the main scope wins over the other
      strategies. */
  lemma SelectorWins(c: Options, lib: Library, tree: Node)
    requires MainScope(c, lib, tree).Some? && Truthy(c.selector)
    requires lib.select(c.selector, MainScope(c, lib, tree).value).Some?
    ensures ChooseFragment(c, lib, tree) == lib.select(c.selector, MainScope(c, lib, tree).value)
  {
  }

  /** The excerpt comment is tried before truncation: when no selector
      match came first and the excerpt finds a fragment, it is used. */
  lemma ExcerptBeforeTruncation(c: Options, lib: Library, tree: Node)
    requires MainScope(c, lib, tree).Some? && Truthy(c.comment)
    requires !Truthy(c.selector) || lib.select(c.selector, MainScope(c, lib, tree).value).None?
    requires lib.excerpt(MainScope(c, lib, tree).value, ExcerptArgs(c, lib, tree)).Some?
    ensures ChooseFragment(c, lib, tree)
      == lib.excerpt(MainScope(c, lib, tree).value, ExcerptArgs(c, lib, tree))
  {
  }

  /** Truncation is the last resort, and it always yields a fragment: with
      a numeric `truncateSize` and a main scope there is always one. */
  lemma TruncationLastResort(c: Options, lib: Library, tree: Node)
    requires MainScope(c, lib, tree).Some? && c.truncateSize.Num?
    requires !Truthy(c.selector) || lib.select(c.selector, MainScope(c, lib, tree).value).None?
    requires !Truthy(c.comment) || lib.excerpt(MainScope(c, lib, tree).value, ExcerptArgs(c, lib, tree)).None?
    ensures ChooseFragment(c, lib, tree)
      == Some(lib.truncate(MainScope(c, lib, tree).value, TruncateArgs(c, lib, tree)))
  {
  }

  /** There is a fragment exactly when there is a main scope and some
      enabled strategy finds one; a numeric `truncateSize` always does. */
  lemma FragmentFoundIff(c: Options, lib: Library, tree: Node)
    ensures var main := MainScope(c, lib, tree);
      ChooseFragment(c, lib, tree).Some? <==>
        && main.Some?
        && ((Truthy(c.selector) && lib.select(c.selector, main.value).Some?)
            || (Truthy(c.comment) && lib.excerpt(main.value, ExcerptArgs(c, lib, tree)).Some?)
            || c.truncateSize.Num?)
  {
  }

  // ---------------------------------------------------------------------
  // Writing the metadata

  /** The two entries of `file.data` the plugin reads or writes; `None` is
      an entry that is not set. */
  datatype FileData = FileData(matter: Option<Record>, meta: Option<Record>)

  /** `file.data.matter || {}` and the `meta` object before the writes. */
  function MatterOf(data: FileData): Record {
    if data.matter.Some? then data.matter.value else map[]
  }

  function MetaOf(data: FileData): Record {
    if data.meta.Some? then data.meta.value else map[]
  }

  const DescriptionKey: string := "description"
  const DescriptionHastKey: string := "descriptionHast"

  /** The description is written only when neither the front matter nor
      an earlier plugin set a truthy one; a missing key, `''`, `null` or
      `false` there does not stop it. */
  predicate MayWriteDescription(matter: Record, meta: Record)
    ensures MayWriteDescription(matter, meta) <==>
      Get(matter, DescriptionKey) in Falsy && Get(meta, DescriptionKey) in Falsy
    ensures DescriptionKey !in matter && DescriptionKey !in meta ==> MayWriteDescription(matter, meta)
  {
    !Truthy(Get(matter, DescriptionKey)) && !Truthy(Get(meta, DescriptionKey))
  }

  /** The tree is exposed only on request and when neither the front
      matter nor an earlier plugin set a truthy one. */
  predicate MayWriteDescriptionHast(c: Options, matter: Record, meta: Record)
    ensures MayWriteDescriptionHast(c, matter, meta) <==>
      && Get(matter, DescriptionHastKey) in Falsy
      && Get(meta, DescriptionHastKey) in Falsy
      && c.inferDescriptionHast !in Falsy
    ensures c.inferDescriptionHast == Bool(false) ==> !MayWriteDescriptionHast(c, matter, meta)
  {
    && !Truthy(Get(matter, DescriptionHastKey))
    && !Truthy(Get(meta, DescriptionHastKey))
    && Truthy(c.inferDescriptionHast)
  }

  /** The description text of a fragment whose positions were removed: a
      string with no white space at either end, falsy only when empty. */
  function DescriptionOf(lib: Library, stripped: Node): (d: Value)
    ensures d.Str?
    ensures |d.s| > 0 ==> !IsTrimSpace(d.s[0]) && !IsTrimSpace(d.s[|d.s| - 1])
    ensures Truthy(d) <==> |d.s| > 0
  {
    var text := Normalize(lib.toText(stripped));
    StringTruthy(text);
    Str(text)
  }

  /** The two guarded writes into `meta` for the fragment `stripped`. The
      guard of the second write reads `meta` after the first, which cannot
      have touched `descriptionHast`. */
  function WriteMeta(c: Options, lib: Library, matter: Record, meta: Record, stripped: Node): (r: Record)
    ensures r - {DescriptionKey, DescriptionHastKey} == meta - {DescriptionKey, DescriptionHastKey}
    ensures MayWriteDescription(matter, meta) ==> Get(r, DescriptionKey) == DescriptionOf(lib, stripped)
    ensures !MayWriteDescription(matter, meta) ==> Get(r, DescriptionKey) == Get(meta, DescriptionKey)
    ensures MayWriteDescriptionHast(c, matter, meta) ==> Get(r, DescriptionHastKey) == Hast(stripped)
    ensures !MayWriteDescriptionHast(c, matter, meta) ==>
      Get(r, DescriptionHastKey) == Get(meta, DescriptionHastKey)
    ensures MayWriteDescription(matter, meta) ==> DescriptionKey in r
    ensures !MayWriteDescription(matter, meta) ==> (DescriptionKey in r <==> DescriptionKey in meta)
    ensures MayWriteDescriptionHast(c, matter, meta) ==> DescriptionHastKey in r
    ensures !MayWriteDescriptionHast(c, matter, meta) ==>
      (DescriptionHastKey in r <==> DescriptionHastKey in meta)
  {
    var written := {DescriptionKey, DescriptionHastKey};
    var meta1 :=
      if MayWriteDescription(matter, meta)
      then SetOnly(meta, DescriptionKey, DescriptionHastKey, DescriptionOf(lib, stripped), written)
      else meta;
    var meta2 :=
      if MayWriteDescriptionHast(c, matter, meta1)
      then SetOnly(meta1, DescriptionHastKey, DescriptionKey, Hast(stripped), written)
      else meta1;
    meta2
  }

  /** `record[key] = v` seen from the keys it leaves alone. */
  function SetOnly(record: Record, key: string, other: string, v: Value, written: set<string>): (r: Record)
    requires key in written && key != other
    ensures r - written == record - written
    ensures Get(r, key) == v && Get(r, other) == Get(record, other)
    ensures key in r && (other in r <==> other in record)
  {
    var r := record[key := v];
    assert r - written == record - written by {
      forall k | k in record - written ensures k in r - written && (r - written)[k] == record[k] {
      }
    }
    r
  }

  /** The transformer with resolved options `c`: `file.data` after it ran
      on `tree`. With a fragment, `meta` is created if missing and the
      writes go to it; without one nothing changes. */
  function Transform(c: Options, lib: Library, tree: Node, data: FileData): (r: FileData)
    ensures r.matter == data.matter
    ensures ChooseFragment(c, lib, tree).None? ==> r == data
    ensures ChooseFragment(c, lib, tree).Some? ==> r.meta.Some?
    ensures ChooseFragment(c, lib, tree).Some? ==>
      r.meta.value - {DescriptionKey, DescriptionHastKey}
        == MetaOf(data) - {DescriptionKey, DescriptionHastKey}
    ensures var f := ChooseFragment(c, lib, tree);
      f.Some? ==>
        var stripped := RemovePosition(f.value);
        && (MayWriteDescription(MatterOf(data), MetaOf(data)) ==>
              Get(r.meta.value, DescriptionKey) == DescriptionOf(lib, stripped))
        && (!MayWriteDescription(MatterOf(data), MetaOf(data)) ==>
              Get(r.meta.value, DescriptionKey) == Get(MetaOf(data), DescriptionKey))
        && (MayWriteDescriptionHast(c, MatterOf(data), MetaOf(data)) ==>
              Get(r.meta.value, DescriptionHastKey) == Hast(stripped))
        && (!MayWriteDescriptionHast(c, MatterOf(data), MetaOf(data)) ==>
              Get(r.meta.value, DescriptionHastKey) == Get(MetaOf(data), DescriptionHastKey))
    ensures ChooseFragment(c, lib, tree).Some? ==>
      && (MayWriteDescription(MatterOf(data), MetaOf(data)) ==> DescriptionKey in r.meta.value)
      && (!MayWriteDescription(MatterOf(data), MetaOf(data)) ==>
            (DescriptionKey in r.meta.value <==> DescriptionKey in MetaOf(data)))
      && (MayWriteDescriptionHast(c, MatterOf(data), MetaOf(data)) ==> DescriptionHastKey in r.meta.value)
      && (!MayWriteDescriptionHast(c, MatterOf(data), MetaOf(data)) ==>
            (DescriptionHastKey in r.meta.value <==> DescriptionHastKey in MetaOf(data)))
  {
    match ChooseFragment(c, lib, tree)
    case None => data
    case Some(fragment) =>
      data.(meta := Some(WriteMeta(c, lib, MatterOf(data), MetaOf(data), RemovePosition(fragment))))
  }

  /** The plugin called with `options`, then run on `tree` and `file.data`.
      Left undefined, `truncateSize` defaults to a number, so without a
      `mainSelector` a `meta` object always exists afterwards. */
  function Run(options: Options, lib: Library, tree: Node, data: FileData): (r: FileData)
    ensures r.matter == data.matter
    ensures Resolve(options).truncateSize.Num? && MainScope(Resolve(options), lib, tree).Some? ==>
      r.meta.Some?
    ensures options.truncateSize == Undefined && !Truthy(options.mainSelector) ==> r.meta.Some?
  {
    FragmentFoundIff(Resolve(options), lib, tree);
    Transform(Resolve(options), lib, tree, data)
  }

  /** A truthy value already in the front matter or in `meta` is never
      overwritten. */
  lemma NeverOverwrites(c: Options, lib: Library, tree: Node, data: FileData, key: string)
    requires key == DescriptionKey || key == DescriptionHastKey
    requires Truthy(Get(MatterOf(data), key)) || Truthy(Get(MetaOf(data), key))
    ensures Get(MetaOf(Transform(c, lib, tree, data)), key) == Get(MetaOf(data), key)
  {
  }

  /** Running the transformer a second time on the same tree changes
      nothing more. */
  lemma TransformIdempotent(c: Options, lib: Library, tree: Node, data: FileData)
    ensures Transform(c, lib, tree, Transform(c, lib, tree, data)) == Transform(c, lib, tree, data)
  {
    var r := Transform(c, lib, tree, data);
    var r2 := Transform(c, lib, tree, r);
    if ChooseFragment(c, lib, tree).Some? {
      var meta := r.meta.value;
      var meta2 := r2.meta.value;
      assert meta2 - {DescriptionKey, DescriptionHastKey} == meta - {DescriptionKey, DescriptionHastKey};
      assert Get(meta2, DescriptionKey) == Get(meta, DescriptionKey);
      assert Get(meta2, DescriptionHastKey) == Get(meta, DescriptionHastKey);
      SameMaps(meta2, meta, DescriptionKey, DescriptionHastKey);
    }
  }

  /** Two records that agree off two keys and on both keys are equal. */
  lemma SameMaps(a: Record, b: Record, k1: string, k2: string)
    requires a - {k1, k2} == b - {k1, k2}
    requires Get(a, k1) == Get(b, k1) && Get(a, k2) == Get(b, k2)
    requires (k1 in a <==> k1 in b) && (k2 in a <==> k2 in b)
    ensures a == b
  {
    forall k | k in a ensures k in b && a[k] == b[k] {
      if k != k1 && k != k2 {
        assert k in a - {k1, k2};
      }
    }
    forall k | k in b ensures k in a {
      if k != k1 && k != k2 {
        assert k in b - {k1, k2};
      }
    }
  }

  /** An unmatched `mainSelector` leaves `file.data` exactly as it was: no
      `meta` object is created. */
  lemma UnmatchedMainIsNoOp(c: Options, lib: Library, tree: Node, data: FileData)
    requires Truthy(c.mainSelector) && lib.select(c.mainSelector, tree).None?
    ensures Transform(c, lib, tree, data) == data
  {
  }

  /** With the default options a description is always inferred when none
      was set: truncation always finds a fragment. No tree is exposed. */
  lemma DefaultsAlwaysDescribe(lib: Library, tree: Node, data: FileData)
    requires MayWriteDescription(MatterOf(data), MetaOf(data))
    ensures ChooseFragment(Resolve(NoOptions), lib, tree).Some?
    ensures var r := Run(NoOptions, lib, tree, data);
      var f := ChooseFragment(Resolve(NoOptions), lib, tree).value;
      && r.meta.Some?
      && DescriptionKey in r.meta.value
      && Get(r.meta.value, DescriptionKey) == DescriptionOf(lib, RemovePosition(f))
      && Get(r.meta.value, DescriptionKey).Str?
      && Get(r.meta.value, DescriptionHastKey) == Get(MetaOf(data), DescriptionHastKey)
      && (DescriptionHastKey in r.meta.value <==> DescriptionHastKey in MetaOf(data))
  {
    var c := Resolve(NoOptions);
    FragmentFoundIff(c, lib, tree);
  }

  /** A document without an excerpt comment, run with the default options
      on empty data: it is truncated to 140 characters with an ellipsis,
      ignoring the default selector, and `meta` holds the description and
      nothing else. */
  lemma TruncateByDefaultExample(lib: Library, tree: Node)
    requires lib.excerpt(tree, ExcerptArgs(Resolve(NoOptions), lib, tree)).None?
    ensures var f := lib.truncate(tree, TruncateOptions(
              lib.selectAll(Str("h1, script, style, noscript, template"), tree), 140, [Ellipsis]));
      && ChooseFragment(Resolve(NoOptions), lib, tree) == Some(f)
      && Run(NoOptions, lib, tree, FileData(None, None))
           == FileData(None, Some(map[DescriptionKey := DescriptionOf(lib, RemovePosition(f))]))
  {
    var c := Resolve(NoOptions);
    FragmentFoundIff(c, lib, tree);
  }

  /** `truncateSize: null` is kept (defaults replace `undefined` only) and
      switches truncation off, so a document without a selector match or
      an excerpt comment gets no description. */
  lemma NullTruncateSizeDisablesTruncation(o: Options, lib: Library, tree: Node)
    requires o.truncateSize == Null
    ensures var c := Resolve(o);
      var main := MainScope(c, lib, tree);
      ChooseFragment(c, lib, tree).Some? <==>
        && main.Some?
        && ((Truthy(c.selector) && lib.select(c.selector, main.value).Some?)
            || (Truthy(c.comment) && lib.excerpt(main.value, ExcerptArgs(c, lib, tree)).Some?))
  {
    FragmentFoundIff(Resolve(o), lib, tree);
  }

  /** Running with `mainSelector: 'article'` on a document without an
      `article` leaves an empty `file.data` empty. */
  lemma MainSelectorWithoutMatchExample(lib: Library, tree: Node)
    requires lib.select(Str("article"), tree).None?
    ensures Run(NoOptions.(mainSelector := Str("article")), lib, tree, FileData(None, None))
      == FileData(None, None)
  {
    UnmatchedMainIsNoOp(Resolve(NoOptions.(mainSelector := Str("article"))), lib, tree, FileData(None, None));
  }

  /** With `inferDescriptionHast: true` on fresh data, both entries are
      written from the same fragment, stripped of its positions. */
  lemma DescriptionHastExample(lib: Library, tree: Node)
    ensures var c := Resolve(NoOptions.(inferDescriptionHast := Bool(true)));
      var f := ChooseFragment(c, lib, tree);
      var r := Run(NoOptions.(inferDescriptionHast := Bool(true)), lib, tree, FileData(None, None));
      && f.Some?
      && r.meta == Some(map[
           DescriptionKey := DescriptionOf(lib, RemovePosition(f.value)),
           DescriptionHastKey := Hast(RemovePosition(f.value))])
  {
    var c := Resolve(NoOptions.(inferDescriptionHast := Bool(true)));
    FragmentFoundIff(c, lib, tree);
  }
}
